=== FILE: README.md ===
# BalSync balance reconciliation, modelled in Dafny

BalSync is a Bukkit plugin that keeps each player's balance in the server's
Vault economy in step with a MySQL table shared by several servers. This
project models its reconciliation engine. The engine keeps two per-player
snapshot maps: `lastKnownBalances`, the last balance this server believes the
economy holds, and `lastKnownDbBalances`, the last balance it believes the
table holds. At each synchronisation point it decides whether to change the
economy, the table, or neither.

The model is a functional state machine. `Engine.State` holds:
- the economy accounts;
- the table, as a map from player UUID to `Row(name, balance)`;
- the two snapshot maps;
- the online players;
- the known players with their names (`Bukkit.getOfflinePlayers()`);
- whether the poll task is live.

Every public or scheduled operation is one step that returns the new state.
A store call that throws an `SQLException` is picked by a fault plan
(`Engine.Faults`: the k-th store call made for a player fails). The step then
returns exactly what the source's catch block leaves behind. Amounts are
`real`, and the noise threshold is the exact constant 0.001.

Modules:
- `Basics`: ids, the 0.001 threshold.
- `Configuration`: `ConfigManager`'s defaults and the scheduling gates.
- `Economy`: the Vault calls.
- `Store`: `DatabaseManager`'s three statements and the poll's batched read.
- `Engine`: `BalanceManager`.
- `Listener`: `PlayerEventListener`.
- `Sync`: properties across steps and across servers.

Threading is modelled as follows:
- The poll is split in two. `Engine.Poll` is the asynchronous half: it reads,
  updates the DB snapshot and queues applies. `Engine.ApplyDbChange` is the
  main-thread apply, which reads the balance only when it runs.
- The quit handler returns its save and its tracking as separate tasks
  (`Listener.Task`), so lemmas can run them in either order.
- Save-all and the offline monitor are loops over the known players that visit
  them in an arbitrary order. They are proved to handle each player
  independently of the others.

In these places the code behaves in ways a reader might not expect; the model
follows the code:
- A load applies any nonzero difference, with no 0.001 threshold
  (BalanceManager.java:81-86).
- The poll records a changed row in the DB snapshot whether or not the apply
  then changes anything. The apply sets only the local snapshot, and only when
  it moves the balance (BalanceManager.java:159-162, 179-186).
- A save whose change is within 0.001 does not skip. It falls through to the
  overwrite path (BalanceManager.java:289, 299-302), and save-all always
  overwrites (BalanceManager.java:25-43). A change another server
  has just added to the row is then lost, although the delta path exists to
  prevent exactly that (DatabaseManager.java:161-164). The model keeps this
  behaviour; `Sync.WithinNoiseSaveClobbers` and `Sync.SaveAllClobbers` show it.
- Quitting never drops a player's snapshot. Only `shutdown` clears the maps,
  and nothing in the source calls `shutdown`.
- When a delta has been added but the re-read that follows throws, neither
  snapshot is updated, so the next pass sends the same delta again
  (BalanceManager.java:290-294, 236-242). `Engine.Save` and `Engine.MonitorOne`
  do exactly this; the corrected behaviour is kept apart in `Engine.PushDelta`,
  `Engine.SaveFixed` and `Engine.MonitorOneFixed` (see Findings).

## Model

| member | source | states |
|---|---|---|
| Engine.Start | src/main/java/com/user404_/balsync/BalanceManager.java:48-54 | a new engine starts with both snapshot maps empty, over whatever economy, table, online players and known players the server already has (a plugin reload starts with players online), and its poll task (registered at :110-119) is live exactly when the poll interval is positive |
| Engine.Load | src/main/java/com/user404_/balsync/BalanceManager.java:57-107 | if the read throws, nothing changes; otherwise the player's balance becomes exactly the stored value (or the starting balance when there is no row), reset-on-join or not and whatever the balance was before; both snapshots hold that value, the table is untouched and no other player changes |
| Engine.Poll | src/main/java/com/user404_/balsync/BalanceManager.java:122-169 | no task, nobody online or a read error means no change; otherwise, for every player, an apply is queued and the DB snapshot set to the row's balance if and only if the player is online, has a row, and that row is new to the DB snapshot (no snapshot or more than 0.001 away); every other DB snapshot, and everything else, stays as it was |
| Engine.ApplyDbChange | src/main/java/com/user404_/balsync/BalanceManager.java:172-206 | when the new value is more than 0.001 from the balance read at apply time, the balance becomes exactly the new value and the local snapshot records it; otherwise nothing changes; never the DB snapshot or the table, never another player |
| Engine.PushDelta | src/main/java/com/user404_/balsync/BalanceManager.java:290-294 | the corrected variant of the delta path, not the code as written (see Findings): if the add throws, nothing changes; otherwise the table receives exactly `balance - lastLocal` as an atomic add and the local snapshot takes the balance even when the re-read throws; the DB snapshot takes the re-read value, or keeps its old value if the re-read throws; no other player changes |
| Engine.PushDeltaAsWritten | src/main/java/com/user404_/balsync/BalanceManager.java:288-296 | if the add throws, nothing changes; otherwise the table receives exactly `balance - lastLocal` as an atomic add (not an overwrite); if the re-read then throws, both snapshots keep their old values although the add went through; if it succeeds, the local snapshot takes the balance and the DB snapshot the re-read value; no other player and not the economy changes |
| Engine.Save | src/main/java/com/user404_/balsync/BalanceManager.java:279-308 | with a local snapshot more than 0.001 from the balance, the save is the delta push as written, and a failure of either the add or the re-read leaves both snapshots unchanged; otherwise (no snapshot, or within 0.001) it upserts the balance and sets both snapshots to it, and a failed upsert leaves everything unchanged; the economy and other players are never touched |
| Engine.SaveFixed | src/main/java/com/user404_/balsync/BalanceManager.java:279-308 | the corrected save (see Findings): on the delta path it is the corrected push, elsewhere it is exactly Save; whenever its first store call succeeds the local snapshot ends at the balance |
| Engine.SaveAllOne | src/main/java/com/user404_/balsync/BalanceManager.java:30-42 | a player with an account whose upsert succeeds gets a row holding their name and balance, and both snapshots hold that balance; a player without an account, or whose upsert fails, is left exactly as before |
| Engine.SaveAll | src/main/java/com/user404_/balsync/BalanceManager.java:25-46 | in any visiting order, every known player ends as SaveAllOne leaves them, and players who are not known are untouched: for each player with an account and no failure, the row, the local snapshot and the DB snapshot all hold the ledger balance |
| Engine.MonitorOne | src/main/java/com/user404_/balsync/BalanceManager.java:225-261 | without an account nothing happens; with no local snapshot only the current balance is recorded, with no store write; within 0.001 of the snapshot nothing happens; beyond it the change goes to the store as the delta push as written, and a failure of the add or the re-read leaves both snapshots unchanged |
| Engine.MonitorOneFixed | src/main/java/com/user404_/balsync/BalanceManager.java:225-261 | the corrected monitor step (see Findings): on a divergence it is the corrected push, elsewhere exactly MonitorOne; whenever its first store call succeeds, no change beyond 0.001 is left between the balance and the local snapshot |
| Engine.Monitor | src/main/java/com/user404_/balsync/BalanceManager.java:224-262 | in any visiting order, each known player ends as MonitorOne leaves them: a first sighting records the balance and leaves the row and the DB snapshot alone; a divergence adds exactly the delta to the row, and records the balance when both store calls succeed; a failed add or re-read leaves both snapshots unchanged, and a failed add also leaves the row |
| Engine.TrackQuit | src/main/java/com/user404_/balsync/BalanceManager.java:265-267 | the local snapshot records the quitting balance; the DB snapshot, the table, the economy and every other player are untouched |
| Engine.Shutdown | src/main/java/com/user404_/balsync/BalanceManager.java:311-317 | the poll task is cancelled and both snapshot maps are empty; the economy, the table and the online and known players are kept |
| Store.GetBalance | src/main/java/com/user404_/balsync/DatabaseManager.java:130-143 | the player's stored balance when a row exists, the configured starting balance otherwise |
| Store.SaveBalance | src/main/java/com/user404_/balsync/DatabaseManager.java:145-159 | afterwards the player's row holds exactly the given name and balance; no other row changes and no row disappears |
| Store.AddBalanceDelta | src/main/java/com/user404_/balsync/DatabaseManager.java:166-189 | the balance read back afterwards is the balance read before plus `delta`; an existing row keeps its name and has `delta` added, a missing row is inserted with `starting + delta` under the given name; no other row changes |
| Store.ReadBatch | src/main/java/com/user404_/balsync/BalanceManager.java:140-155 | returns exactly the requested players that have a row, each with its stored balance |
| Store.ReadBatchAgreesWithGetBalance | src/main/java/com/user404_/balsync/DatabaseManager.java:130-143 | the batch read and the single read agree on every requested player that has a row, and the batch leaves out exactly the players without one |
| Store.AddDeltaComposes | src/main/java/com/user404_/balsync/DatabaseManager.java:166-189 | adding d1 and then d2 leaves the table identical to adding d1 + d2 once, whether or not the row existed |
| Store.AddZeroDelta | src/main/java/com/user404_/balsync/DatabaseManager.java:167-185 | a zero delta leaves an existing row alone and inserts the starting balance for a missing one |
| Store.SaveBalanceLastWriterWins | src/main/java/com/user404_/balsync/DatabaseManager.java:145-158 | a second upsert for the same player completely replaces the first, and a read after an upsert returns the written balance |
| Economy.CreateAccount | src/main/java/com/user404_/balsync/BalanceManager.java:63-66 | a new account opens for the player with the provider's opening balance, and every existing account keeps its balance |
| Economy.MoveTo | src/main/java/com/user404_/balsync/BalanceManager.java:81-86 | depositing the positive gap or withdrawing the negative one leaves the balance exactly at the target, and no other account changes |
| Listener.OnJoin | src/main/java/com/user404_/balsync/PlayerEventListener.java:22-29 | a join adds exactly this player to the online set and records their name among the known players; it changes no one else's entry, no balance, snapshot or row, and leaves the poll task as it was |
| Listener.JoinTimer | src/main/java/com/user404_/balsync/PlayerEventListener.java:24-28 | the delayed task queues exactly one load of the player if and only if they are still online, and nothing else |
| Listener.OnQuit | src/main/java/com/user404_/balsync/PlayerEventListener.java:31-45 | a quit queues one save if and only if save-on-quit is set, and one record of the quitting balance if and only if offline monitoring is on and the auto-save interval is 0; nothing else, and nothing twice, is queued, and the player leaves the online set |
| Listener.DefaultQuitOnlySaves | src/main/java/com/user404_/balsync/PlayerEventListener.java:35-44 | with the default settings (save on quit, auto-save every 60 seconds) a quit queues exactly one save and no quit tracking |
| Listener.Run | src/main/java/com/user404_/balsync/PlayerEventListener.java:26-43 | running a task: quit tracking never touches the DB snapshot or the table, and only a load changes the economy |
| Listener.JoinLoadsOnlyIfStillOnline | src/main/java/com/user404_/balsync/PlayerEventListener.java:24-28 | a player who stays is loaded; a player who quits before the delayed task runs is not |
| Listener.QuitSnapshotEitherOrder | src/main/java/com/user404_/balsync/PlayerEventListener.java:35-44 | whichever order the queued save and the quit tracking run in, a save whose write succeeds leaves the local snapshot at the quitting balance |
| Listener.QuitTrackingFirstTurnsSaveIntoOverwrite | src/main/java/com/user404_/balsync/PlayerEventListener.java:35-44 | the order still matters for the table: a save that runs after the tracking overwrites the row with the quitting balance, while one that runs first adds only the delta |
| Sync.LoadEstablishesSync | src/main/java/com/user404_/balsync/BalanceManager.java:60-90 | after a load whose read succeeds, the balance, both snapshots and the stored balance are equal |
| Sync.ResetOnJoinExample | src/main/java/com/user404_/balsync/BalanceManager.java:68-86 | with reset-on-join, a balance of 75 with 40 stored loads as 40, not 115 |
| Sync.LocalChangeConverges | src/main/java/com/user404_/balsync/BalanceManager.java:279-308 | after any local change to an in-sync player, one save that does not fail brings the store and both snapshots back in line with the balance |
| Sync.ExternalChangeConverges | src/main/java/com/user404_/balsync/BalanceManager.java:122-206 | after an external write to an online in-sync player's row, one poll and its apply leave the balance within 0.001 of the store, and exactly in sync when the write was more than 0.001 |
| Sync.TwoServersNoClobber | src/main/java/com/user404_/balsync/BalanceManager.java:285-295 | when both servers' changes exceed 0.001, two servers saving against one table leave the row at its old balance plus both changes: no lost update on the delta path |
| Sync.WithinNoiseSaveClobbers | src/main/java/com/user404_/balsync/BalanceManager.java:289-302 | as written, when one server's change exceeds 0.001 and the other's does not, the first adds its change to the row and the second's save overwrites the row with its own balance, losing the first server's change |
| Sync.WithinNoiseSaveExample | src/main/java/com/user404_/balsync/BalanceManager.java:285-302 | snapshots and row at 100, server A at 110 and server B still at 100: A's save moves the row to 110 and B's save writes it back to 100 |
| Sync.SaveAllClobbers | src/main/java/com/user404_/balsync/BalanceManager.java:25-43 | after another server's delta reached the row, this server's save-all overwrites the row with its own balance |
| Sync.TwoServersExample | src/main/java/com/user404_/balsync/BalanceManager.java:285-295 | both servers with snapshot 100 and balance 110 leave the row at 120, not 110 |
| Sync.FirstContactOverwrites | src/main/java/com/user404_/balsync/BalanceManager.java:299-302 | a player with no snapshot and no row whose balance is 50 gets a row holding 50 |
| Sync.OfflineDivergenceAddsDelta | src/main/java/com/user404_/balsync/BalanceManager.java:230-242 | snapshot 30 and balance 45: the monitor adds 15 to whatever the row held, rather than writing 45 |
| Sync.FreshEngineOverwritesFirst | src/main/java/com/user404_/balsync/BalanceManager.java:22-23 | a new engine has no snapshots, so its first poll picks up every online player with a row, and its first save of any player overwrites the row with the balance and records that balance as both snapshots |
| Sync.ShutdownForgets | src/main/java/com/user404_/balsync/BalanceManager.java:311-317 | after shutdown, polling changes nothing and the next save of any player overwrites the row with the balance |
| Sync.RereadFailureDoubleCounts | src/main/java/com/user404_/balsync/BalanceManager.java:236-242 | as written, a monitor pass whose re-read throws after a successful add keeps the old local snapshot, and the next pass adds the same delta again: the row moves by twice the change |
| Sync.SaveRereadFailureDoubleCounts | src/main/java/com/user404_/balsync/BalanceManager.java:290-294 | as written, a save whose re-read throws after a successful add keeps the old local snapshot, and the next save of the unchanged balance adds the same delta again: the row moves by twice the change |
| Sync.SaveRereadFailureCountsOnce | src/main/java/com/user404_/balsync/BalanceManager.java:290-294 | with the corrected save, the first save moves the row by the change once and records the balance, and the next save sends no delta, only upserting that balance |
| Sync.RereadFailureCountsOnce | src/main/java/com/user404_/balsync/BalanceManager.java:234-242 | with the corrected monitor, the same two passes move the row by the change exactly once |

## Left out

- Threads and scheduler hops. Each step runs atomically. The poll's
  main-thread apply is its own step. The load's asynchronous read and
  main-thread apply run as one step, so a quit between the two is not modelled.
  The unsynchronised `HashMap` races are not modelled.
- Vault's `EconomyResponse` and the success flag of `createPlayerAccount`.
  Account creation, deposits and withdrawals always succeed, the latter two
  with the exact amount; a provider that refuses a withdrawal for insufficient funds is
  not modelled. Reading a player without an account gives 0.
- The balance of an account created by `createPlayerAccount` is provider
  defined. It is a parameter of `Engine.Load`, and the result does not depend
  on it.
- Java `double` rounding and the table's DECIMAL(15,2) rounding. Amounts are
  exact reals.
- Notifications, log lines and message formatting (BalanceManager.java:92-99,
  188-202, 244-251), and the `notifyOnExternalChange` setting, which only
  affects them.
- Connection pooling, table creation and the SQL text of the batched read.
  `Store.ReadBatch` is its result.
- Plugin lifecycle, the admin command, translations and YAML loading. The
  settings are the typed `Configuration.Config`. Timers are not modelled: the
  auto-save timer (a positive `autoSaveInterval`) and the monitor timer
  (`Configuration.OfflineMonitoring`) are named in the doc comments of
  `Engine.SaveAll` and `Engine.Monitor`, which are steps the environment may
  take at any time.
- A failed poll read is modelled as touching nothing. The source could
  already have processed some rows before a failure while iterating the
  result set (BalanceManager.java:153-168).
- Engine.PushDelta, Engine.SaveFixed and Engine.MonitorOneFixed: corrected
  variants from Findings. They deliberately differ from
  BalanceManager.java:292-294 and :239-242 and are used only to state the fix.

## Findings

| source | as written | input that shows it | evidently intended | confidence | as-written member | corrected member |
|---|---|---|---|---|---|---|
| src/main/java/com/user404_/balsync/BalanceManager.java:290-294 | after `addBalanceDelta` succeeds, both snapshots are updated only if the following `getBalance` also succeeds (the offline monitor at :236-242 does the same) | snapshot 100, balance 110, row 100; the re-read after the add throws; the next monitor or save pass adds 10 again, so the row reads 120 | a change the store has accepted is sent once: the local snapshot takes the balance as soon as the add succeeds, and the row reads 110 | medium; not executed | Engine.Save, Sync.SaveRereadFailureDoubleCounts, Engine.MonitorOne, Sync.RereadFailureDoubleCounts | Engine.SaveFixed, Sync.SaveRereadFailureCountsOnce, Engine.MonitorOneFixed, Sync.RereadFailureCountsOnce |

=== FILE: basics.dfy ===
/** Player identities and the balance-noise threshold shared by every part of the model. */
module Basics {

  /** A player's UUID. Only equality of identifiers matters to the engine. */
  type PlayerId = nat

  /** What the engine uses of a Bukkit player: its UUID and its current name. */
  datatype Player = Player(id: PlayerId, name: string)

  /** Balance differences at or below this amount are treated as no change. */
  const Threshold: real := 0.001

  function Abs(x: real): (r: real)
    ensures r >= 0.0
    ensures r == x || r == -x
  {
    if x < 0.0 then -x else x
  }

  /** `Math.abs(a - b) > 0.001`: the two balances differ by more than noise. */
  predicate Diverges(a: real, b: real)
  {
    Abs(a - b) > Threshold
  }
}

=== FILE: configuration.dfy ===
/** The typed settings the engine reads, with the defaults ConfigManager falls back to. */
module Configuration {

  datatype Config = Config(
    autoSaveInterval: int,          // settings.auto-save-interval, seconds
    saveOnQuit: bool,               // settings.save-on-quit
    startingBalance: real,          // settings.starting-balance
    resetOnJoin: bool,              // settings.reset-on-join
    monitorOfflineChanges: bool,    // settings.monitor-offline-changes
    dbPollInterval: int,            // settings.db-poll-interval, seconds
    notifyOnExternalChange: bool)   // settings.notify-on-external-change

  /** The values used when a key is missing from config.yml. */
  const Defaults: Config := Config(60, true, 100.0, false, true, 10, true)

  /** The database poll task is registered only for a positive interval. */
  predicate PollingScheduled(c: Config)
  {
    c.dbPollInterval > 0
  }

  /**
   * Offline monitoring: the monitor task is registered, and the quit handler
   * records the quitting balance, only when auto-save is off and monitoring is on.
   */
  predicate OfflineMonitoring(c: Config)
  {
    c.autoSaveInterval == 0 && c.monitorOfflineChanges
  }
}

=== FILE: economy.dfy ===
/** The Vault economy as the engine sees it: one balance per player that has an account. */
module Economy {
  import opened Basics

  type Accounts = map<PlayerId, real>

  /** `economy.getBalance`: a player without an account reads as 0. */
  function Balance(a: Accounts, id: PlayerId): (b: real)
  {
    if id in a then a[id] else 0.0
  }

  /** `economy.createPlayerAccount`: the provider opens the account with its own initial balance. */
  function CreateAccount(a: Accounts, id: PlayerId, opening: real): (a': Accounts)
    requires id !in a
    ensures a'.Keys == a.Keys + {id}
    ensures Balance(a', id) == opening
    ensures forall k :: k in a ==> a'[k] == a[k]
  {
    a[id := opening]
  }

  /** `economy.depositPlayer`: Vault refuses negative amounts. */
  function Deposit(a: Accounts, id: PlayerId, amount: real): (a': Accounts)
    requires amount >= 0.0
    ensures Balance(a', id) == Balance(a, id) + amount
    ensures a'.Keys == a.Keys + {id}
    ensures forall k :: k in a && k != id ==> a'[k] == a[k]
    ensures Balance(a', id) >= Balance(a, id)
  {
    a[id := Balance(a, id) + amount]
  }

  /** `economy.withdrawPlayer`: Vault refuses negative amounts. */
  function Withdraw(a: Accounts, id: PlayerId, amount: real): (a': Accounts)
    requires amount >= 0.0
    ensures Balance(a', id) == Balance(a, id) - amount
    ensures a'.Keys == a.Keys + {id}
    ensures forall k :: k in a && k != id ==> a'[k] == a[k]
    ensures Balance(a', id) <= Balance(a, id)
  {
    a[id := Balance(a, id) - amount]
  }

  /** Moves a balance to `target` the way the engine does: deposit the gap if positive, withdraw it if negative. */
  function MoveTo(a: Accounts, id: PlayerId, target: real): (a': Accounts)
    requires id in a
    ensures a' == a[id := target]
  {
    var difference := target - Balance(a, id);
    if difference > 0.0 then Deposit(a, id, difference)
    else if difference < 0.0 then Withdraw(a, id, Abs(difference))
    else a
  }
}

=== FILE: engine.dfy ===
/**
 * The balance-reconciliation engine of one server (BalanceManager): the two
 * snapshot maps and one step per public or scheduled operation.
 *
 * Threads are abstracted: each step runs to completion on its own. A store
 * call that throws is chosen by a fault plan, and the step then does what the
 * source's catch block leaves behind.
 */
module Engine {
  import opened Wrappers
  import opened Basics
  import opened Configuration
  import opened Economy
  import opened Store

  datatype State = State(
    ledger: Accounts,                  // the Vault economy of this server
    table: Table,                      // the shared balance table
    lastLocal: map<PlayerId, real>,    // lastKnownBalances
    lastDb: map<PlayerId, real>,       // lastKnownDbBalances
    online: set<PlayerId>,             // Bukkit.getOnlinePlayers()
    roster: map<PlayerId, string>,     // Bukkit.getOfflinePlayers(): every known player, with its name
    polling: bool)                     // the poll task is registered and not cancelled

  /**
   * Which store call throws during one step: `f[id] == k` means the k-th store
   * call made on behalf of player `id` (counting from 0) raises an SQLException.
   */
  type Faults = map<PlayerId, nat>

  predicate Fails(f: Faults, id: PlayerId, call: nat)
  {
    id in f && f[id] == call
  }

  /** Everything the state records about one player. */
  datatype Slice = Slice(account: Option<real>, row: Option<Row>, local: Option<real>, remote: Option<real>)

  function SliceOf(s: State, id: PlayerId): (sl: Slice)
  {
    Slice(Lookup(s.ledger, id), Lookup(s.table, id), Lookup(s.lastLocal, id), Lookup(s.lastDb, id))
  }

  /** The parts of the state no per-player step changes. */
  predicate SameShape(s: State, s': State)
  {
    s.online == s'.online && s.roster == s'.roster && s.polling == s'.polling
  }

  /** `s'` differs from `s` at most in what it records about player `id`. */
  ghost predicate OnlyTouches(s: State, s': State, id: PlayerId)
  {
    SameShape(s, s') && forall other :: other != id ==> SliceOf(s', other) == SliceOf(s, other)
  }

  /**
   * The constructor: empty snapshots, and the poll task registered only for a
   * positive interval. Who is online is the server's business, not the
   * engine's: after a plugin reload players are online with no join event.
   */
  function Start(cfg: Config, ledger: Accounts, table: Table, online: set<PlayerId>, roster: map<PlayerId, string>): (s: State)
    ensures s.lastLocal == map[] && s.lastDb == map[]
    ensures s.ledger == ledger && s.table == table && s.online == online && s.roster == roster
    ensures s.polling <==> cfg.dbPollInterval > 0
  {
    State(ledger, table, map[], map[], online, roster, PollingScheduled(cfg))
  }

  // ---------------------------------------------------------------- load

  /**
   * `loadPlayerBalance`: read the stored balance (call 0), open an account if
   * needed, optionally zero the balance, then move it to the stored value with
   * no noise threshold, and record the stored value in both snapshots.
   * `opening` is the economy provider's balance for a newly opened account.
   */
  function Load(cfg: Config, s: State, p: Player, f: Faults, opening: real): (s': State)
    ensures Fails(f, p.id, 0) ==> s' == s
    ensures !Fails(f, p.id, 0) ==>
      var db := GetBalance(s.table, p.id, cfg.startingBalance);
      && s'.ledger == s.ledger[p.id := db]
      && s'.lastLocal == s.lastLocal[p.id := db]
      && s'.lastDb == s.lastDb[p.id := db]
      && s'.table == s.table
    ensures OnlyTouches(s, s', p.id)
  {
    if Fails(f, p.id, 0) then s
    else
      var db := GetBalance(s.table, p.id, cfg.startingBalance);
      var accounts := if p.id in s.ledger then s.ledger else CreateAccount(s.ledger, p.id, opening);
      var base := if cfg.resetOnJoin then MoveTo(accounts, p.id, 0.0) else accounts;
      var loaded := MoveTo(base, p.id, db);
      s.(ledger := loaded, lastLocal := s.lastLocal[p.id := db], lastDb := s.lastDb[p.id := db])
  }

  // ---------------------------------------------------------------- poll

  /** What the poll's async half leaves behind: the new state and the main-thread applies it queued. */
  datatype PollResult = PollResult(state: State, pending: map<PlayerId, real>)

  /** A row the poll acts on: an online player with a row whose balance is new to the DB snapshot. */
  predicate PolledChange(s: State, id: PlayerId)
  {
    && id in s.online
    && id in s.table
    && (id !in s.lastDb || Diverges(s.table[id].balance, s.lastDb[id]))
  }

  /**
   * `pollDatabaseForChanges`: nothing unless the task is live and someone is
   * online; on a read error, nothing. Otherwise every returned row whose balance
   * is new to the DB snapshot is recorded there, and a main-thread apply is
   * queued for it (the player is online, as the query only asked for online
   * players). The ledger is read only when that apply runs.
   */
  function Poll(s: State, readFails: bool): (r: PollResult)
    ensures !s.polling || s.online == {} || readFails ==> r == PollResult(s, map[])
    ensures r.state == s.(lastDb := r.state.lastDb)
    ensures s.polling && s.online != {} && !readFails ==>
      forall id ::
        && (id in r.pending <==> PolledChange(s, id))
        && (PolledChange(s, id) ==> r.pending[id] == s.table[id].balance && Lookup(r.state.lastDb, id) == Some(s.table[id].balance))
        && (!PolledChange(s, id) ==> Lookup(r.state.lastDb, id) == Lookup(s.lastDb, id))
  {
    if !s.polling || s.online == {} || readFails then PollResult(s, map[])
    else
      var rows := ReadBatch(s.table, s.online);
      var changed := map id | id in rows && (id !in s.lastDb || Diverges(rows[id], s.lastDb[id])) :: rows[id];
      var pending := map id | id in changed && id in s.online :: changed[id];
      PollResult(s.(lastDb := s.lastDb + changed), pending)
  }

  /**
   * `applyDbChangeToPlayer`, the main-thread half: read the current balance now
   * and, only if the new value is more than noise away, move the balance to it
   * and record it as the local snapshot.
   */
  function ApplyDbChange(s: State, id: PlayerId, newBalance: real): (s': State)
    ensures Diverges(newBalance, Balance(s.ledger, id)) ==>
      && s'.ledger == s.ledger[id := newBalance]
      && s'.lastLocal == s.lastLocal[id := newBalance]
      && s'.lastDb == s.lastDb && s'.table == s.table
    ensures !Diverges(newBalance, Balance(s.ledger, id)) ==> s' == s
    ensures OnlyTouches(s, s', id)
  {
    var current := Balance(s.ledger, id);
    var difference := newBalance - current;
    if Abs(difference) > Threshold then
      var moved :=
        if difference > 0.0 then Deposit(s.ledger, id, difference)
        else Withdraw(s.ledger, id, Abs(difference));
      s.(ledger := moved, lastLocal := s.lastLocal[id := newBalance])
    else s
  }

  // ---------------------------------------------------------------- save

  /** The overwrite path: upsert the balance, then record it in both snapshots. */
  function Overwrite(s: State, id: PlayerId, name: string, balance: real): (s': State)
  {
    s.(table := SaveBalance(s.table, id, name, balance),
       lastLocal := s.lastLocal[id := balance],
       lastDb := s.lastDb[id := balance])
  }

  /**
   * The delta path shared by the per-player save and the offline monitor: add
   * `balance - lastLocal[id]` to the store (call 0), re-read the store (call 1),
   * and only then record the balance and the re-read value. A store error in
   * either call skips both snapshot updates, even when the add has already
   * gone through.
   */
  function PushDeltaAsWritten(cfg: Config, s: State, id: PlayerId, name: string, balance: real, f: Faults): (s': State)
    requires id in s.lastLocal
    ensures Fails(f, id, 0) ==> s' == s
    ensures !Fails(f, id, 0) ==> s'.table == AddBalanceDelta(s.table, id, name, balance - s.lastLocal[id], cfg.startingBalance)
    ensures Fails(f, id, 1) ==> s'.lastLocal == s.lastLocal && s'.lastDb == s.lastDb
    ensures !Fails(f, id, 0) && !Fails(f, id, 1) ==>
      && s'.lastLocal == s.lastLocal[id := balance]
      && s'.lastDb == s.lastDb[id := GetBalance(s'.table, id, cfg.startingBalance)]
    ensures s'.ledger == s.ledger && OnlyTouches(s, s', id)
  {
    var delta := balance - s.lastLocal[id];
    if Fails(f, id, 0) then s
    else
      var t := AddBalanceDelta(s.table, id, name, delta, cfg.startingBalance);
      if Fails(f, id, 1) then s.(table := t)
      else s.(table := t, lastLocal := s.lastLocal[id := balance], lastDb := s.lastDb[id := GetBalance(t, id, cfg.startingBalance)])
  }

  /**
   * The corrected delta path: once the add has gone through, the local
   * snapshot takes the balance even if the re-read throws, so the same delta
   * is never sent twice. Used only by SaveFixed and MonitorOneFixed.
   */
  function PushDelta(cfg: Config, s: State, id: PlayerId, name: string, balance: real, f: Faults): (s': State)
    requires id in s.lastLocal
    ensures Fails(f, id, 0) ==> s' == s
    ensures !Fails(f, id, 0) ==>
      && s'.table == AddBalanceDelta(s.table, id, name, balance - s.lastLocal[id], cfg.startingBalance)
      && s'.lastLocal == s.lastLocal[id := balance]
      && s'.lastDb == (if Fails(f, id, 1) then s.lastDb else s.lastDb[id := GetBalance(s'.table, id, cfg.startingBalance)])
    ensures s'.ledger == s.ledger && OnlyTouches(s, s', id)
  {
    var delta := balance - s.lastLocal[id];
    if Fails(f, id, 0) then s
    else
      var t := AddBalanceDelta(s.table, id, name, delta, cfg.startingBalance);
      if Fails(f, id, 1) then s.(table := t, lastLocal := s.lastLocal[id := balance])
      else s.(table := t, lastLocal := s.lastLocal[id := balance], lastDb := s.lastDb[id := GetBalance(t, id, cfg.startingBalance)])
  }

  /** The per-player save takes the delta path: a local snapshot exists and the balance moved by more than noise. */
  predicate TakesDeltaPath(s: State, id: PlayerId)
  {
    id in s.lastLocal && Diverges(Balance(s.ledger, id), s.lastLocal[id])
  }

  /**
   * `savePlayerBalance`: with a local snapshot and a change beyond noise, send
   * the change as a delta; otherwise (no snapshot, or a change within noise)
   * overwrite the row with the current balance (call 0) and record it in both
   * snapshots. A store error leaves both snapshots as they were.
   */
  function Save(cfg: Config, s: State, p: Player, f: Faults): (s': State)
    ensures TakesDeltaPath(s, p.id) ==> s' == PushDeltaAsWritten(cfg, s, p.id, p.name, Balance(s.ledger, p.id), f)
    ensures TakesDeltaPath(s, p.id) && (Fails(f, p.id, 0) || Fails(f, p.id, 1)) ==>
      s'.lastLocal == s.lastLocal && s'.lastDb == s.lastDb
    ensures !TakesDeltaPath(s, p.id) && Fails(f, p.id, 0) ==> s' == s
    ensures !TakesDeltaPath(s, p.id) && !Fails(f, p.id, 0) ==>
      && s'.table == SaveBalance(s.table, p.id, p.name, Balance(s.ledger, p.id))
      && s'.lastLocal == s.lastLocal[p.id := Balance(s.ledger, p.id)]
      && s'.lastDb == s.lastDb[p.id := Balance(s.ledger, p.id)]
    ensures s'.ledger == s.ledger && OnlyTouches(s, s', p.id)
  {
    var balance := Balance(s.ledger, p.id);
    if p.id in s.lastLocal && Diverges(balance, s.lastLocal[p.id]) then
      PushDeltaAsWritten(cfg, s, p.id, p.name, balance, f)
    else if Fails(f, p.id, 0) then s
    else Overwrite(s, p.id, p.name, balance)
  }

  /** Save with the corrected delta path: a successful add always moves the local snapshot. */
  function SaveFixed(cfg: Config, s: State, p: Player, f: Faults): (s': State)
    ensures TakesDeltaPath(s, p.id) ==> s' == PushDelta(cfg, s, p.id, p.name, Balance(s.ledger, p.id), f)
    ensures !Fails(f, p.id, 0) ==> Lookup(s'.lastLocal, p.id) == Some(Balance(s.ledger, p.id))
    ensures !TakesDeltaPath(s, p.id) ==> s' == Save(cfg, s, p, f)
    ensures s'.ledger == s.ledger && OnlyTouches(s, s', p.id)
  {
    var balance := Balance(s.ledger, p.id);
    if p.id in s.lastLocal && Diverges(balance, s.lastLocal[p.id]) then
      PushDelta(cfg, s, p.id, p.name, balance, f)
    else if Fails(f, p.id, 0) then s
    else Overwrite(s, p.id, p.name, balance)
  }

  // ---------------------------------------------------------------- save-all

  /** One iteration of `saveAllBalances`: a player with an account gets its row overwritten and both snapshots set. */
  function SaveAllOne(s: State, id: PlayerId, name: string, f: Faults): (s': State)
    ensures id in s.ledger && !Fails(f, id, 0) ==>
      && s'.table == SaveBalance(s.table, id, name, s.ledger[id])
      && s'.lastLocal == s.lastLocal[id := s.ledger[id]]
      && s'.lastDb == s.lastDb[id := s.ledger[id]]
    ensures id !in s.ledger || Fails(f, id, 0) ==> s' == s
    ensures s'.ledger == s.ledger && OnlyTouches(s, s', id)
  {
    if id in s.ledger && !Fails(f, id, 0) then Overwrite(s, id, name, s.ledger[id]) else s
  }

  lemma SaveAllOneLocal(s1: State, s2: State, id: PlayerId, name: string, f: Faults)
    requires SliceOf(s1, id) == SliceOf(s2, id)
    ensures SliceOf(SaveAllOne(s1, id, name, f), id) == SliceOf(SaveAllOne(s2, id, name, f), id)
  {
  }

  /** SaveAllOne's effect on the player's own slice. */
  lemma SaveAllOneEffect(s: State, id: PlayerId, name: string, f: Faults)
    ensures id in s.ledger && !Fails(f, id, 0) ==>
      SliceOf(SaveAllOne(s, id, name, f), id)
        == Slice(Some(s.ledger[id]), Some(Row(name, s.ledger[id])), Some(s.ledger[id]), Some(s.ledger[id]))
  {
  }

  /** What save-all leaves for player `id` once every known player outside `todo` has been visited. */
  function SaveAllSlice(s: State, id: PlayerId, f: Faults, todo: set<PlayerId>): (sl: Slice)
  {
    if id in s.roster && id !in todo then SliceOf(SaveAllOne(s, id, s.roster[id], f), id) else SliceOf(s, id)
  }

  /**
   * `saveAllBalances`: visit every known player, in whatever order, and apply
   * SaveAllOne to each. Each player's outcome is independent of the others'.
   * The plugin runs it on disable, from the admin command, and on a timer when
   * `autoSaveInterval` is positive; the model does not schedule it.
   */
  method SaveAll(s: State, f: Faults) returns (r: State)
    ensures SameShape(s, r) && r.ledger == s.ledger
    ensures forall id :: SliceOf(r, id) == SaveAllSlice(s, id, f, {})
    ensures forall id :: id in s.roster && id in s.ledger && !Fails(f, id, 0) ==>
      && Lookup(r.table, id) == Some(Row(s.roster[id], s.ledger[id]))
      && Lookup(r.lastLocal, id) == Some(s.ledger[id])
      && Lookup(r.lastDb, id) == Some(s.ledger[id])
    ensures forall id :: id !in s.roster || id !in s.ledger || Fails(f, id, 0) ==> SliceOf(r, id) == SliceOf(s, id)
  {
    r := s;
    var todo := s.roster.Keys;
    while todo != {}
      invariant todo <= s.roster.Keys
      invariant SameShape(s, r) && r.ledger == s.ledger
      invariant forall id :: SliceOf(r, id) == SaveAllSlice(s, id, f, todo)
      decreases todo
    {
      var id :| id in todo;
      SaveAllOneLocal(r, s, id, s.roster[id], f);
      r := SaveAllOne(r, id, s.roster[id], f);
      todo := todo - {id};
    }
    forall id | id in s.roster
      ensures SliceOf(r, id) == SliceOf(SaveAllOne(s, id, s.roster[id], f), id)
    {
      assert SliceOf(r, id) == SaveAllSlice(s, id, f, {});
      SaveAllOneEffect(s, id, s.roster[id], f);
    }
  }

  // ---------------------------------------------------------------- offline monitor

  /**
   * One iteration of `monitorOfflineBalanceChanges`, for a player with an
   * account: with a local snapshot more than noise away, push the change as a
   * delta; with no local snapshot, only record the current balance.
   */
  function MonitorOne(cfg: Config, s: State, id: PlayerId, name: string, f: Faults): (s': State)
    ensures id !in s.ledger ==> s' == s
    ensures id in s.ledger && id !in s.lastLocal ==>
      s' == s.(lastLocal := s.lastLocal[id := s.ledger[id]])
    ensures id in s.ledger && id in s.lastLocal && !Diverges(s.ledger[id], s.lastLocal[id]) ==> s' == s
    ensures id in s.ledger && id in s.lastLocal && Diverges(s.ledger[id], s.lastLocal[id]) ==>
      s' == PushDeltaAsWritten(cfg, s, id, name, s.ledger[id], f)
    ensures id in s.ledger && id in s.lastLocal && (Fails(f, id, 0) || Fails(f, id, 1)) ==>
      s'.lastLocal == s.lastLocal && s'.lastDb == s.lastDb
    ensures s'.ledger == s.ledger && OnlyTouches(s, s', id)
  {
    if id in s.ledger then
      var current := s.ledger[id];
      if id in s.lastLocal && Diverges(current, s.lastLocal[id]) then PushDeltaAsWritten(cfg, s, id, name, current, f)
      else if id !in s.lastLocal then s.(lastLocal := s.lastLocal[id := current])
      else s
    else s
  }

  /** MonitorOne with the corrected delta path. */
  function MonitorOneFixed(cfg: Config, s: State, id: PlayerId, name: string, f: Faults): (s': State)
    ensures id in s.ledger && id in s.lastLocal && Diverges(s.ledger[id], s.lastLocal[id]) ==>
      s' == PushDelta(cfg, s, id, name, s.ledger[id], f)
    ensures id in s.ledger && !Fails(f, id, 0) ==> id in s'.lastLocal && !Diverges(s.ledger[id], s'.lastLocal[id])
    ensures !(id in s.ledger && id in s.lastLocal && Diverges(s.ledger[id], s.lastLocal[id])) ==>
      s' == MonitorOne(cfg, s, id, name, f)
    ensures s'.ledger == s.ledger && OnlyTouches(s, s', id)
  {
    if id in s.ledger then
      var current := s.ledger[id];
      if id in s.lastLocal && Diverges(current, s.lastLocal[id]) then PushDelta(cfg, s, id, name, current, f)
      else if id !in s.lastLocal then s.(lastLocal := s.lastLocal[id := current])
      else s
    else s
  }

  lemma MonitorOneLocal(cfg: Config, s1: State, s2: State, id: PlayerId, name: string, f: Faults)
    requires SliceOf(s1, id) == SliceOf(s2, id)
    ensures SliceOf(MonitorOne(cfg, s1, id, name, f), id) == SliceOf(MonitorOne(cfg, s2, id, name, f), id)
  {
  }

  /** MonitorOne's effect on the player's own slice. */
  lemma MonitorOneEffect(cfg: Config, s: State, id: PlayerId, name: string, f: Faults)
    ensures var sl := SliceOf(MonitorOne(cfg, s, id, name, f), id);
      && (id in s.ledger && id !in s.lastLocal ==>
            sl == SliceOf(s, id).(local := Some(s.ledger[id])))
      && (id in s.ledger && id in s.lastLocal && Diverges(s.ledger[id], s.lastLocal[id]) && !Fails(f, id, 0) ==>
            sl.row == Lookup(AddBalanceDelta(s.table, id, name, s.ledger[id] - s.lastLocal[id], cfg.startingBalance), id))
      && (id in s.ledger && id in s.lastLocal && Diverges(s.ledger[id], s.lastLocal[id]) && !Fails(f, id, 0) && !Fails(f, id, 1) ==>
            sl.local == Some(s.ledger[id]))
      && (id in s.ledger && id in s.lastLocal && Diverges(s.ledger[id], s.lastLocal[id]) && (Fails(f, id, 0) || Fails(f, id, 1)) ==>
            sl.local == Lookup(s.lastLocal, id) && sl.remote == Lookup(s.lastDb, id))
      && (Fails(f, id, 0) ==> sl.row == Lookup(s.table, id) && sl.remote == Lookup(s.lastDb, id))
  {
  }

  /** What the monitor leaves for player `id` once every known player outside `todo` has been visited. */
  function MonitorSlice(cfg: Config, s: State, id: PlayerId, f: Faults, todo: set<PlayerId>): (sl: Slice)
  {
    if id in s.roster && id !in todo then SliceOf(MonitorOne(cfg, s, id, s.roster[id], f), id) else SliceOf(s, id)
  }

  /**
   * `monitorOfflineBalanceChanges`: MonitorOne for every known player, in
   * whatever order. The constructor registers it on a timer only when
   * `OfflineMonitoring(cfg)` holds; the model does not schedule it.
   */
  method Monitor(cfg: Config, s: State, f: Faults) returns (r: State)
    ensures SameShape(s, r) && r.ledger == s.ledger
    ensures forall id :: SliceOf(r, id) == MonitorSlice(cfg, s, id, f, {})
    ensures forall id :: id in s.roster && id in s.ledger && id !in s.lastLocal ==>
      && Lookup(r.lastLocal, id) == Some(s.ledger[id])
      && Lookup(r.table, id) == Lookup(s.table, id)
      && Lookup(r.lastDb, id) == Lookup(s.lastDb, id)
    ensures forall id :: id in s.roster && id in s.ledger && id in s.lastLocal
                         && Diverges(s.ledger[id], s.lastLocal[id]) && !Fails(f, id, 0) ==>
      Lookup(r.table, id) == Lookup(AddBalanceDelta(s.table, id, s.roster[id], s.ledger[id] - s.lastLocal[id], cfg.startingBalance), id)
    ensures forall id :: id in s.roster && id in s.ledger && id in s.lastLocal
                         && Diverges(s.ledger[id], s.lastLocal[id]) && !Fails(f, id, 0) && !Fails(f, id, 1) ==>
      Lookup(r.lastLocal, id) == Some(s.ledger[id])
    ensures forall id :: id in s.roster && id in s.ledger && id in s.lastLocal
                         && Diverges(s.ledger[id], s.lastLocal[id]) && (Fails(f, id, 0) || Fails(f, id, 1)) ==>
      Lookup(r.lastLocal, id) == Lookup(s.lastLocal, id) && Lookup(r.lastDb, id) == Lookup(s.lastDb, id)
    ensures forall id :: id in s.roster && Fails(f, id, 0) ==>
      Lookup(r.table, id) == Lookup(s.table, id) && Lookup(r.lastDb, id) == Lookup(s.lastDb, id)
  {
    r := s;
    var todo := s.roster.Keys;
    while todo != {}
      invariant todo <= s.roster.Keys
      invariant SameShape(s, r) && r.ledger == s.ledger
      invariant forall id :: SliceOf(r, id) == MonitorSlice(cfg, s, id, f, todo)
      decreases todo
    {
      var id :| id in todo;
      MonitorOneLocal(cfg, r, s, id, s.roster[id], f);
      r := MonitorOne(cfg, r, id, s.roster[id], f);
      todo := todo - {id};
    }
    forall id | id in s.roster
      ensures id in s.ledger && id !in s.lastLocal ==>
        && Lookup(r.lastLocal, id) == Some(s.ledger[id])
        && Lookup(r.table, id) == Lookup(s.table, id)
        && Lookup(r.lastDb, id) == Lookup(s.lastDb, id)
      ensures id in s.ledger && id in s.lastLocal && Diverges(s.ledger[id], s.lastLocal[id]) && !Fails(f, id, 0) ==>
        Lookup(r.table, id) == Lookup(AddBalanceDelta(s.table, id, s.roster[id], s.ledger[id] - s.lastLocal[id], cfg.startingBalance), id)
      ensures id in s.ledger && id in s.lastLocal && Diverges(s.ledger[id], s.lastLocal[id]) && !Fails(f, id, 0) && !Fails(f, id, 1) ==>
        Lookup(r.lastLocal, id) == Some(s.ledger[id])
      ensures id in s.ledger && id in s.lastLocal && Diverges(s.ledger[id], s.lastLocal[id]) && (Fails(f, id, 0) || Fails(f, id, 1)) ==>
        Lookup(r.lastLocal, id) == Lookup(s.lastLocal, id) && Lookup(r.lastDb, id) == Lookup(s.lastDb, id)
      ensures Fails(f, id, 0) ==> Lookup(r.table, id) == Lookup(s.table, id) && Lookup(r.lastDb, id) == Lookup(s.lastDb, id)
    {
      assert SliceOf(r, id) == MonitorSlice(cfg, s, id, f, {});
      MonitorOneEffect(cfg, s, id, s.roster[id], f);
    }
  }

  // ---------------------------------------------------------------- quit tracking and shutdown

  /** `trackPlayerQuit`: remember the quitting balance as the local snapshot; the DB snapshot is not touched. */
  function TrackQuit(s: State, id: PlayerId, balance: real): (s': State)
    ensures Lookup(s'.lastLocal, id) == Some(balance)
    ensures s'.lastDb == s.lastDb && s'.table == s.table && s'.ledger == s.ledger
    ensures OnlyTouches(s, s', id)
  {
    s.(lastLocal := s.lastLocal[id := balance])
  }

  /** `shutdown`: cancel the poll task and forget both snapshot maps. */
  function Shutdown(s: State): (s': State)
    ensures s'.lastLocal == map[] && s'.lastDb == map[] && !s'.polling
    ensures s'.ledger == s.ledger && s'.table == s.table && s'.online == s.online && s'.roster == s.roster
  {
    s.(lastLocal := map[], lastDb := map[], polling := false)
  }
}

=== FILE: listener.dfy ===
/**
 * The join/quit dispatch (PlayerEventListener): which engine steps a join or a
 * quit sets off. Delayed and asynchronous work is returned as tasks that the
 * scheduler runs later, in any order.
 */
module Listener {
  import opened Wrappers
  import opened Basics
  import opened Configuration
  import opened Economy
  import opened Store
  import opened Engine

  datatype Task =
    | LoadTask(player: Player)                  // loadPlayerBalance
    | SaveTask(player: Player)                  // savePlayerBalance
    | TrackTask(id: PlayerId, balance: real)    // trackPlayerQuit

  /** A join makes the player online and known; the load itself waits 40 ticks (JoinTimer). */
  function OnJoin(s: State, p: Player): (s': State)
    ensures s'.online == s.online + {p.id} && s'.roster == s.roster[p.id := p.name]
    ensures s'.polling == s.polling && s'.ledger == s.ledger && s'.table == s.table
    ensures s'.lastLocal == s.lastLocal && s'.lastDb == s.lastDb
  {
    s.(online := s.online + {p.id}, roster := s.roster[p.id := p.name])
  }

  /** The delayed join task: it loads the balance only if the player is still online. */
  function JoinTimer(s: State, p: Player): (tasks: seq<Task>)
    ensures LoadTask(p) in tasks <==> p.id in s.online
    ensures forall t :: t in tasks ==> t == LoadTask(p)
    ensures |tasks| <= 1
  {
    if p.id in s.online then [LoadTask(p)] else []
  }

  datatype QuitResult = QuitResult(state: State, tasks: seq<Task>)

  /**
   * `onPlayerQuit`: queue a save if save-on-quit is set, and record the quitting
   * balance for the offline monitor if that monitor runs. The save is queued on
   * a worker thread while the tracking runs in the handler, so the two reach the
   * snapshot map in either order. The player then leaves the online set.
   */
  function OnQuit(cfg: Config, s: State, p: Player): (q: QuitResult)
    ensures q.state == s.(online := s.online - {p.id})
    ensures SaveTask(p) in q.tasks <==> cfg.saveOnQuit
    ensures TrackTask(p.id, Balance(s.ledger, p.id)) in q.tasks <==> OfflineMonitoring(cfg)
    ensures forall t :: t in q.tasks ==> t == SaveTask(p) || t == TrackTask(p.id, Balance(s.ledger, p.id))
    ensures |q.tasks| == (if cfg.saveOnQuit then 1 else 0) + (if OfflineMonitoring(cfg) then 1 else 0)
  {
    var save := if cfg.saveOnQuit then [SaveTask(p)] else [];
    var track := if OfflineMonitoring(cfg)
                 then [TrackTask(p.id, Balance(s.ledger, p.id))] else [];
    QuitResult(s.(online := s.online - {p.id}), save + track)
  }

  /** Runs one task; `f` says which of its store calls throw, `opening` is a new account's balance. */
  function Run(cfg: Config, s: State, t: Task, f: Faults, opening: real): (s': State)
    ensures t.TrackTask? ==> s'.lastDb == s.lastDb && s'.table == s.table
    ensures !t.LoadTask? ==> s'.ledger == s.ledger
  {
    match t
    case LoadTask(p) => Load(cfg, s, p, f, opening)
    case SaveTask(p) => Save(cfg, s, p, f)
    case TrackTask(id, b) => TrackQuit(s, id, b)
  }

  /** With the default settings a quit queues only the save: the snapshot map is not touched by quit tracking. */
  lemma DefaultQuitOnlySaves(s: State, p: Player)
    ensures OnQuit(Defaults, s, p).tasks == [SaveTask(p)]
  {
  }

  /** A player who quits within the 40-tick delay is never loaded; one who stays is. */
  lemma JoinLoadsOnlyIfStillOnline(cfg: Config, s: State, p: Player)
    ensures JoinTimer(OnJoin(s, p), p) == [LoadTask(p)]
    ensures JoinTimer(OnQuit(cfg, OnJoin(s, p), p).state, p) == []
  {
  }

  /**
   * Whichever order the queued save and the quit tracking run in, a save whose
   * store write goes through leaves the local snapshot at the quitting balance,
   * and the DB snapshot is only ever written by the save.
   */
  lemma QuitSnapshotEitherOrder(cfg: Config, s: State, p: Player, f: Faults, opening: real)
    requires cfg.saveOnQuit && OfflineMonitoring(cfg)
    requires !Fails(f, p.id, 0)
    ensures var q := OnQuit(cfg, s, p);
      var b := Balance(s.ledger, p.id);
      var saveFirst := Run(cfg, Run(cfg, q.state, SaveTask(p), f, opening), TrackTask(p.id, b), f, opening);
      var trackFirst := Run(cfg, Run(cfg, q.state, TrackTask(p.id, b), f, opening), SaveTask(p), f, opening);
      && Lookup(saveFirst.lastLocal, p.id) == Some(b)
      && Lookup(trackFirst.lastLocal, p.id) == Some(b)
      && saveFirst.lastDb == Run(cfg, q.state, SaveTask(p), f, opening).lastDb
  {
  }

  /**
   * The order matters for the store: when the save runs after the tracking it
   * sees no change against the fresh snapshot and overwrites the row with the
   * quitting balance, whereas run first it would have added only the delta.
   */
  lemma QuitTrackingFirstTurnsSaveIntoOverwrite(cfg: Config, s: State, p: Player, f: Faults, opening: real)
    requires cfg.saveOnQuit && OfflineMonitoring(cfg)
    requires !Fails(f, p.id, 0)
    requires TakesDeltaPath(s, p.id)
    ensures var q := OnQuit(cfg, s, p);
      var b := Balance(s.ledger, p.id);
      var saveFirst := Run(cfg, Run(cfg, q.state, SaveTask(p), f, opening), TrackTask(p.id, b), f, opening);
      var trackFirst := Run(cfg, Run(cfg, q.state, TrackTask(p.id, b), f, opening), SaveTask(p), f, opening);
      && saveFirst.table == AddBalanceDelta(s.table, p.id, p.name, b - s.lastLocal[p.id], cfg.startingBalance)
      && trackFirst.table == SaveBalance(s.table, p.id, p.name, b)
  {
  }
}

=== FILE: store.dfy ===
/**
 * The shared MySQL balance table, as a map from player UUID to its row, and the
 * three statements the engine issues against it.
 */
module Store {
  import opened Basics

  /** One row of the balance table: the player's last known name and balance. */
  datatype Row = Row(name: string, balance: real)

  /** The table, keyed by the unique player_uuid column. */
  type Table = map<PlayerId, Row>

  /** `getBalance`: the stored balance, or the configured starting balance when the player has no row. */
  function GetBalance(t: Table, id: PlayerId, starting: real): (b: real)
    ensures id in t ==> b == t[id].balance
    ensures id !in t ==> b == starting
  {
    if id in t then t[id].balance else starting
  }

  /** `saveBalance`: INSERT ... ON DUPLICATE KEY UPDATE, an upsert of name and balance. */
  function SaveBalance(t: Table, id: PlayerId, name: string, balance: real): (t': Table)
    ensures t'.Keys == t.Keys + {id}
    ensures t'[id] == Row(name, balance)
    ensures forall k :: k in t && k != id ==> t'[k] == t[k]
  {
    t[id := Row(name, balance)]
  }

  /**
   * `addBalanceDelta`: `UPDATE ... SET balance = balance + delta`, and when no row
   * was affected an INSERT of `starting + delta` under the given name.
   */
  function AddBalanceDelta(t: Table, id: PlayerId, name: string, delta: real, starting: real): (t': Table)
    ensures t'.Keys == t.Keys + {id}
    ensures GetBalance(t', id, starting) == GetBalance(t, id, starting) + delta
    ensures id in t ==> t'[id] == t[id].(balance := t[id].balance + delta)
    ensures id !in t ==> t'[id] == Row(name, starting + delta)
    ensures forall k :: k in t && k != id ==> t'[k] == t[k]
  {
    if id in t then t[id := t[id].(balance := t[id].balance + delta)]
    else t[id := Row(name, starting + delta)]
  }

  /** The poll's batched SELECT ... WHERE player_uuid IN (...): ids without a row are simply absent. */
  function ReadBatch(t: Table, ids: set<PlayerId>): (rows: map<PlayerId, real>)
    ensures rows.Keys == ids * t.Keys
    ensures forall id :: id in rows ==> rows[id] == t[id].balance
  {
    map id | id in ids && id in t :: t[id].balance
  }

  /** Reading never changes the table, and a row read by the batch agrees with `getBalance`. */
  lemma ReadBatchAgreesWithGetBalance(t: Table, ids: set<PlayerId>, id: PlayerId, starting: real)
    requires id in ids
    ensures id in ReadBatch(t, ids) <==> id in t
    ensures id in t ==> ReadBatch(t, ids)[id] == GetBalance(t, id, starting)
  {
  }

  /** Two deltas in a row leave the table exactly as their sum applied once. */
  lemma AddDeltaComposes(t: Table, id: PlayerId, name: string, name2: string, d1: real, d2: real, starting: real)
    ensures AddBalanceDelta(AddBalanceDelta(t, id, name, d1, starting), id, name2, d2, starting)
         == AddBalanceDelta(t, id, name, d1 + d2, starting)
  {
  }

  /** A zero delta on an existing row changes nothing; on a missing row it inserts the starting balance. */
  lemma AddZeroDelta(t: Table, id: PlayerId, name: string, starting: real)
    ensures id in t ==> AddBalanceDelta(t, id, name, 0.0, starting) == t
    ensures id !in t ==> AddBalanceDelta(t, id, name, 0.0, starting) == t[id := Row(name, starting)]
  {
  }

  /** Upserts are last-writer-wins: a second save to the same id hides the first entirely. */
  lemma SaveBalanceLastWriterWins(t: Table, id: PlayerId, n1: string, b1: real, n2: string, b2: real, starting: real)
    ensures SaveBalance(SaveBalance(t, id, n1, b1), id, n2, b2) == SaveBalance(t, id, n2, b2)
    ensures GetBalance(SaveBalance(t, id, n1, b1), id, starting) == b1
  {
  }
}

=== FILE: sync.dfy ===
/**
 * Properties that span several steps or several servers sharing one table:
 * convergence after a local or an external change; no lost update between two
 * servers when both servers' changes exceed the noise threshold, and the
 * overwrite that loses an update when one server's change is within it; the
 * double send after a failed re-read, as written and corrected.
 */
module Sync {
  import opened Wrappers
  import opened Basics
  import opened Configuration
  import opened Economy
  import opened Store
  import opened Engine

  /** No store call fails. */
  const NoFaults: Faults := map[]

  /** Ledger, both snapshots and the store all agree on the player's balance. */
  predicate InSync(cfg: Config, s: State, id: PlayerId)
  {
    && id in s.ledger && id in s.lastLocal && id in s.lastDb
    && s.lastLocal[id] == s.ledger[id]
    && s.lastDb[id] == s.ledger[id]
    && GetBalance(s.table, id, cfg.startingBalance) == s.ledger[id]
  }

  /** A load whose read succeeds puts the player in sync, whatever the balance before, reset or not. */
  lemma LoadEstablishesSync(cfg: Config, s: State, p: Player, opening: real)
    ensures InSync(cfg, Load(cfg, s, p, NoFaults, opening), p.id)
  {
  }

  /**
   * Reset-on-join zeroes the balance before the stored value is applied: a
   * balance of 75 with 40 stored loads as 40, not 115.
   */
  lemma ResetOnJoinExample(cfg: Config, s: State, p: Player, opening: real)
    requires cfg.resetOnJoin
    requires Lookup(s.ledger, p.id) == Some(75.0) && Lookup(s.table, p.id) == Some(Row(p.name, 40.0))
    ensures Lookup(Load(cfg, s, p, NoFaults, opening).ledger, p.id) == Some(40.0)
  {
  }

  /**
   * A local change on an in-sync player reaches the store through a save that
   * does not fail, and the player is in sync again.
   */
  lemma LocalChangeConverges(cfg: Config, s: State, p: Player, b: real)
    requires InSync(cfg, s, p.id)
    ensures InSync(cfg, Save(cfg, s.(ledger := s.ledger[p.id := b]), p, NoFaults), p.id)
  {
  }

  /**
   * An external write to an online, in-sync player's row is picked up by one
   * poll and its queued apply: afterwards ledger and store differ by at most
   * the noise threshold, and when the write was more than noise the player is
   * exactly in sync again.
   */
  lemma ExternalChangeConverges(cfg: Config, s: State, p: Player, v: real)
    requires InSync(cfg, s, p.id) && p.id in s.online && s.polling
    ensures var s1 := s.(table := SaveBalance(s.table, p.id, p.name, v));
      var r := Poll(s1, false);
      var s2 := if p.id in r.pending then ApplyDbChange(r.state, p.id, r.pending[p.id]) else r.state;
      && Abs(Balance(s2.ledger, p.id) - GetBalance(s2.table, p.id, cfg.startingBalance)) <= Threshold
      && (Diverges(v, s.ledger[p.id]) ==> InSync(cfg, s2, p.id))
  {
  }

  /**
   * No lost update when both servers' changes exceed the noise threshold: two
   * servers sharing one table each save their own local change as a delta; the
   * row ends up with both changes added, not the last writer's balance.
   */
  lemma TwoServersNoClobber(cfg: Config, a: State, b: State, p: Player)
    requires TakesDeltaPath(a, p.id) && TakesDeltaPath(b, p.id)
    ensures var a' := Save(cfg, a, p, NoFaults);
      var b' := Save(cfg, b.(table := a'.table), p, NoFaults);
      GetBalance(b'.table, p.id, cfg.startingBalance)
        == GetBalance(a.table, p.id, cfg.startingBalance)
           + (Balance(a.ledger, p.id) - a.lastLocal[p.id])
           + (Balance(b.ledger, p.id) - b.lastLocal[p.id])
  {
  }

  /** Snapshots at 100, each server earns 10: the row goes from 100 to 120, not 110. */
  lemma TwoServersExample(cfg: Config, a: State, b: State, p: Player)
    requires Lookup(a.lastLocal, p.id) == Some(100.0) && Lookup(b.lastLocal, p.id) == Some(100.0)
    requires Lookup(a.ledger, p.id) == Some(110.0) && Lookup(b.ledger, p.id) == Some(110.0)
    requires Lookup(a.table, p.id) == Some(Row(p.name, 100.0))
    ensures var a' := Save(cfg, a, p, NoFaults);
      var b' := Save(cfg, b.(table := a'.table), p, NoFaults);
      Lookup(b'.table, p.id) == Some(Row(p.name, 120.0))
  {
  }

  /**
   * As written, a save whose change is within the noise threshold overwrites
   * the row with the local balance: a change another server has just added to
   * the row is lost.
   */
  lemma WithinNoiseSaveClobbers(cfg: Config, a: State, b: State, p: Player)
    requires TakesDeltaPath(a, p.id)
    requires p.id in b.lastLocal && !TakesDeltaPath(b, p.id)
    ensures var a' := Save(cfg, a, p, NoFaults);
      var b' := Save(cfg, b.(table := a'.table), p, NoFaults);
      && GetBalance(a'.table, p.id, cfg.startingBalance)
           == GetBalance(a.table, p.id, cfg.startingBalance) + (Balance(a.ledger, p.id) - a.lastLocal[p.id])
      && Lookup(b'.table, p.id) == Some(Row(p.name, Balance(b.ledger, p.id)))
  {
  }

  /**
   * Snapshots and row at 100; server A earns 10, server B's balance is still
   * 100. A's save moves the row to 110 and B's save writes it back to 100.
   */
  lemma WithinNoiseSaveExample(cfg: Config, a: State, b: State, p: Player)
    requires Lookup(a.lastLocal, p.id) == Some(100.0) && Lookup(b.lastLocal, p.id) == Some(100.0)
    requires Lookup(a.ledger, p.id) == Some(110.0) && Lookup(b.ledger, p.id) == Some(100.0)
    requires Lookup(a.table, p.id) == Some(Row(p.name, 100.0))
    ensures var a' := Save(cfg, a, p, NoFaults);
      var b' := Save(cfg, b.(table := a'.table), p, NoFaults);
      && Lookup(a'.table, p.id) == Some(Row(p.name, 110.0))
      && Lookup(b'.table, p.id) == Some(Row(p.name, 100.0))
  {
  }

  /**
   * Save-all always overwrites: after another server's delta reached the row,
   * a save-all pass on this server puts the row back at this server's balance.
   */
  lemma SaveAllClobbers(cfg: Config, a: State, b: State, p: Player)
    requires TakesDeltaPath(a, p.id) && p.id in b.ledger
    ensures var a' := Save(cfg, a, p, NoFaults);
      var b' := SaveAllOne(b.(table := a'.table), p.id, p.name, NoFaults);
      && GetBalance(a'.table, p.id, cfg.startingBalance)
           == GetBalance(a.table, p.id, cfg.startingBalance) + (Balance(a.ledger, p.id) - a.lastLocal[p.id])
      && Lookup(b'.table, p.id) == Some(Row(p.name, b.ledger[p.id]))
  {
  }

  /** First contact: no snapshot, balance 50, no row: the save inserts a row holding 50. */
  lemma FirstContactOverwrites(cfg: Config, s: State, p: Player)
    requires p.id !in s.lastLocal && p.id !in s.table && Lookup(s.ledger, p.id) == Some(50.0)
    ensures Lookup(Save(cfg, s, p, NoFaults).table, p.id) == Some(Row(p.name, 50.0))
  {
  }

  /** Offline divergence: snapshot 30, balance now 45: the monitor adds 15 to whatever the row holds. */
  lemma OfflineDivergenceAddsDelta(cfg: Config, s: State, id: PlayerId, name: string)
    requires Lookup(s.lastLocal, id) == Some(30.0) && Lookup(s.ledger, id) == Some(45.0)
    ensures var s' := MonitorOne(cfg, s, id, name, NoFaults);
      GetBalance(s'.table, id, cfg.startingBalance) == GetBalance(s.table, id, cfg.startingBalance) + 15.0
  {
  }

  /**
   * A fresh engine knows no snapshots: every online player with a row is picked
   * up by the first poll, and the first save of any player overwrites its row
   * with the balance and records it in both snapshots.
   */
  lemma FreshEngineOverwritesFirst(cfg: Config, ledger: Accounts, table: Table, online: set<PlayerId>,
                                   roster: map<PlayerId, string>, p: Player)
    ensures var s := Start(cfg, ledger, table, online, roster);
      && (forall id :: PolledChange(s, id) <==> id in online && id in table)
      && var s' := Save(cfg, s, p, NoFaults);
      && s'.table == SaveBalance(table, p.id, p.name, Balance(ledger, p.id))
      && s'.lastLocal == map[p.id := Balance(ledger, p.id)]
      && s'.lastDb == map[p.id := Balance(ledger, p.id)]
  {
  }

  /** After shutdown the poll does nothing, and the next save of any player overwrites its row. */
  lemma ShutdownForgets(cfg: Config, s: State, p: Player, readFails: bool)
    ensures Poll(Shutdown(s), readFails) == PollResult(Shutdown(s), map[])
    ensures Save(cfg, Shutdown(s), p, NoFaults).table == SaveBalance(s.table, p.id, p.name, Balance(s.ledger, p.id))
  {
  }

  /**
   * As written, a re-read that throws after a successful add leaves the local
   * snapshot behind, so the next monitor pass for the same balance adds the
   * same delta again: the row moves by twice the player's change.
   */
  lemma RereadFailureDoubleCounts(cfg: Config, s: State, id: PlayerId, name: string, f: Faults)
    requires id in s.ledger && id in s.lastLocal && Diverges(s.ledger[id], s.lastLocal[id])
    requires !Fails(f, id, 0) && Fails(f, id, 1)
    ensures var s1 := MonitorOne(cfg, s, id, name, f);
      && s1.lastLocal == s.lastLocal
      && var s2 := MonitorOne(cfg, s1, id, name, NoFaults);
      GetBalance(s2.table, id, cfg.startingBalance)
        == GetBalance(s.table, id, cfg.startingBalance) + 2.0 * (s.ledger[id] - s.lastLocal[id])
  {
  }

  /**
   * The same on the save path: a save whose re-read throws after the add keeps
   * the old local snapshot, so the next save of the unchanged balance sends the
   * delta again and the row moves by twice the player's change.
   */
  lemma SaveRereadFailureDoubleCounts(cfg: Config, s: State, p: Player, f: Faults)
    requires TakesDeltaPath(s, p.id)
    requires !Fails(f, p.id, 0) && Fails(f, p.id, 1)
    ensures var s1 := Save(cfg, s, p, f);
      && s1.lastLocal == s.lastLocal
      && var s2 := Save(cfg, s1, p, NoFaults);
      GetBalance(s2.table, p.id, cfg.startingBalance)
        == GetBalance(s.table, p.id, cfg.startingBalance) + 2.0 * (Balance(s.ledger, p.id) - s.lastLocal[p.id])
  {
  }

  /**
   * Corrected save path: the add moves the row by the change once and the local
   * snapshot takes the balance, so the next save of the unchanged balance sends
   * no delta; it only upserts the balance the player already has.
   */
  lemma SaveRereadFailureCountsOnce(cfg: Config, s: State, p: Player, f: Faults)
    requires TakesDeltaPath(s, p.id)
    requires !Fails(f, p.id, 0) && Fails(f, p.id, 1)
    ensures var s1 := SaveFixed(cfg, s, p, f);
      && GetBalance(s1.table, p.id, cfg.startingBalance)
           == GetBalance(s.table, p.id, cfg.startingBalance) + (Balance(s.ledger, p.id) - s.lastLocal[p.id])
      && Lookup(s1.lastLocal, p.id) == Some(Balance(s.ledger, p.id))
      && SaveFixed(cfg, s1, p, NoFaults).table == SaveBalance(s1.table, p.id, p.name, Balance(s.ledger, p.id))
  {
  }

  /**
   * Corrected: once the add has gone through, the local snapshot holds the
   * balance, so the next monitor pass sees no change and the row moves by the
   * player's change exactly once.
   */
  lemma RereadFailureCountsOnce(cfg: Config, s: State, id: PlayerId, name: string, f: Faults)
    requires id in s.ledger && id in s.lastLocal && Diverges(s.ledger[id], s.lastLocal[id])
    requires !Fails(f, id, 0) && Fails(f, id, 1)
    ensures var s1 := MonitorOneFixed(cfg, s, id, name, f);
      var s2 := MonitorOneFixed(cfg, s1, id, name, NoFaults);
      GetBalance(s2.table, id, cfg.startingBalance)
        == GetBalance(s.table, id, cfg.startingBalance) + (s.ledger[id] - s.lastLocal[id])
  {
  }
}

=== FILE: wrappers.dfy ===
/** The optional value used for "no entry in this map". */
module Wrappers {

  datatype Option<+T> = None | Some(value: T)

  /** The entry of `m` at `k`, or None when `m` has no entry there. */
  function Lookup<K, V>(m: map<K, V>, k: K): (r: Option<V>)
    ensures r.Some? <==> k in m
    ensures r.Some? ==> r.value == m[k]
  {
    if k in m then Some(m[k]) else None
  }
}
